=== FILE: README.md ===
# AML oracle: risk scoring and signed attestations

This project models the core of an AML (anti-money-laundering) oracle service
and the verifier contract that consumes its output. It has three parts:

* **History provider** (`getRecentTransactions`). It runs two store queries as
  pure functions over in-memory tables. The ETH query matches the sender or the
  receiver exactly, ignoring case. The BTC query is a case-insensitive substring
  match over the `inputs` and `outputs` tables, joined with `UNION ALL`. Both
  sort newest first, with PostgreSQL's `NULL`s first, and then apply `LIMIT`.
* **Risk engine** (`computeRisk`). It computes an activity signal, a freshness
  signal and an ETH value signal, rounds half up, clamps to 0..10, and sets
  `compliant = risk <= 5`.
* **Signers and verifier**. `evaluateAml` binds the score and an expiry into
  the canonical message `wallet|chain|risk|expires`. It signs
  `sha256(utf8(message))`, keeps the first 64 bytes of the signature
  (`r || s`) and base64-encodes them. `updateOracleData` signs a raw payload
  the same way. The contract's `SendWithAmlCheck` accepts a message when the
  signature is valid, the attestation has not expired, and `risk <= max_risk`.

SHA-256, secp256k1 and base64 are foreign code. They enter as a `Suite` of
function values. What the proofs assume of them is stated as the predicates
`Crypto.Correct` and `Crypto.Unforgeable`, used only as lemma hypotheses.
`Math.log10` is a function parameter, constrained by `Risk.LogLaws`. The tables
and the private key are parameters. So is the clock. `evaluateAml` reads it
twice: once while scoring (`scoreMs`) and once for the expiry (`issueMs`). UTF-8 encoding and
decimal rendering are implemented and proved injective.

Modules, leaves first: `Base`, `Text`, `Decimal`, `Utf8`, `History`, `Risk`,
`Crypto`, `Attestation` (the two handlers), `Contract` (the message types and
the acceptance rule), and `Protocol` (signer and verifier together).

Behaviour of the source worth noting:

* `evaluateAml` (`controller.ts`) does not return the canonical message.
* In `controller.ts`, expiry is `floor(nowMs / 1000) + ttl`. A numeric
  `ttlSeconds` of 0 is falsy and gives 300.
* In `aml.ts`, the value signal is only bounded above
  (`min(10, log10(1 + total))`).
* In `aml.ts`, any chain name other than `eth` takes the BTC branch. In
  `controller.ts`, that name is still signed as given.
* In `controller.ts`, a numeric `maxRisk` of 0 is falsy and is echoed as absent.

## Model

| member | source | states |
|---|---|---|
| Text.Lower | oracle-service/src/aml.ts:21 | SQL `lower` as applied to addresses, and the case folding of `ILIKE` at aml.ts lines 35 and 37: same length, each ASCII capital becomes its small letter and every other character is unchanged |
| Text.ContainsIffOccurs | oracle-service/src/aml.ts:35-37 | the containment test behind the `ILIKE` pattern succeeds exactly when the wallet occurs at some position of the address text |
| Utf8.Encode | oracle-service/src/controller.ts:63 | `toUtf8`: one to four bytes per character, the first character's bytes leading; characterised by Utf8.DecodeEncode and Utf8.EncodeInjective |
| Decimal.NatToString | sample-contract/src/msg.rs:34 | Rust's `{}` rendering of the `u8` risk and `u64` expiry: a non-empty run of decimal digits with no leading zero, `0` exactly for zero; characterised by Decimal.ParseRendered and Decimal.NatToStringInjective |
| Decimal.IntToString | oracle-service/src/controller.ts:62 | the template literal's rendering of an integer: non-empty, digits with a leading minus exactly for negatives, the plain decimal for non-negatives; characterised by Decimal.IntToStringInjective |
| Utf8.DecodeEncode | oracle-service/src/controller.ts:63 | decoding the UTF-8 bytes of a message gives the message back |
| Utf8.EncodeInjective | oracle-service/src/controller.ts:63 | distinct messages have distinct UTF-8 bytes, so the hashed bytes determine the message |
| Decimal.IntToStringInjective | oracle-service/src/controller.ts:62 | distinct integers render as distinct decimal texts |
| Decimal.RenderedHasNoBar | oracle-service/src/controller.ts:62 | a rendered risk or expiry never contains the bar delimiter |
| History.ChainOf | oracle-service/src/aml.ts:16 | the ETH query, and the ETH value signal at aml.ts line 62, apply exactly when the chain name is `eth`; every other name takes the BTC branch |
| History.SelectEth | oracle-service/src/aml.ts:19-27 | each `transactions` row is returned exactly as many times as the table holds it if its sender or receiver equals the wallet ignoring case, and never otherwise; every record is tagged `eth` |
| History.SelectBtc | oracle-service/src/aml.ts:33-44 | each record occurs once per table row that matches and projects to it; every record is tagged `btc` and carries only hash and timestamp |
| History.Matched | oracle-service/src/aml.ts:19-21 | the rows the ETH `WHERE` clause selects, or the BTC `UNION ALL` of inputs and outputs (aml.ts lines 33-38): never more rows than the tables hold, all tagged with the queried chain, BTC ones hash and timestamp only; characterised by History.EthSelectionIff and History.BtcUnionAllCounts |
| History.MatchedTagged | oracle-service/src/aml.ts:27-44 | every selected record carries the requested chain, and BTC records have no from, to or value |
| History.Insert | oracle-service/src/aml.ts:22 | inserting into a newest-first sequence keeps it newest first and adds exactly one element |
| History.SortNewestFirst | oracle-service/src/aml.ts:22 | the sorted history is a permutation of the selection, ordered by timestamp descending with `NULL` first |
| History.Recent | oracle-service/src/aml.ts:12-44 | the result has `min(limit, matches)` records, is newest first, takes no record more often than it was selected, and is tagged with the requested chain |
| History.GetRecentTransactions | oracle-service/src/aml.ts:12-45 | the limit defaults to 20; a negative limit is an error and nothing else is; the result never exceeds the limit, is newest first, and is drawn from the selection |
| History.Take | oracle-service/src/aml.ts:23 | `LIMIT`: the first `min(k, length)` records of the ordered selection, as also at aml.ts line 40; characterised by History.RecentIsNewest |
| History.RecentIsNewest | oracle-service/src/aml.ts:22-23 | every selected record that `LIMIT` cut off is no newer than any record returned |
| History.EthSelectionIff | oracle-service/src/aml.ts:21 | a row's record is in the ETH selection if and only if the row is in the table and matches the wallet |
| History.EthPrefixDoesNotMatch | oracle-service/src/aml.ts:21 | a proper prefix of an address does not match in ETH; the full address in another case does |
| History.BtcUnionAllCounts | oracle-service/src/aml.ts:34-38 | the BTC selection counts a record once per matching input row plus once per matching output row |
| History.BtcMatchedInBothTablesTwice | oracle-service/src/aml.ts:35-37 | a transaction matched in both tables appears at least twice |
| History.BtcSubstringMatches | oracle-service/src/aml.ts:35 | a wallet that is only a substring of a stored address, in another case, still matches |
| History.NullTimestampComesFirst | oracle-service/src/aml.ts:39 | if any selected record lacks a timestamp, the newest record of every non-empty result lacks one |
| Risk.ActivitySignal | oracle-service/src/aml.ts:67 | the activity signal is 1, 3 or 5: 5 exactly below 3 transactions, 1 exactly from 10 on; characterised by Risk.ActivityThresholds |
| Risk.RecentTimestamp | oracle-service/src/aml.ts:58 | a non-zero result is the timestamp of the first record, and a present first timestamp is the result; characterised by Risk.FreshnessByMillis |
| Risk.AgeHours | oracle-service/src/aml.ts:59 | a zero timestamp means 9999 hours, otherwise the result times 3,600,000 is the milliseconds elapsed; characterised by Risk.FreshnessByMillis |
| Risk.FreshnessSignal | oracle-service/src/aml.ts:68 | the freshness signal is 0, 2 or 4: 4 exactly under one hour, 0 exactly from 24 hours on; characterised by Risk.FreshnessByMillis |
| Risk.ValueTotal | oracle-service/src/aml.ts:63 | the sum of the values with missing ones as 0, so 0 when none is present; characterised by Risk.ValueTotalNonNegative |
| Risk.ValueSignal | oracle-service/src/aml.ts:61-65 | the value signal never exceeds 10 and is 0 on BTC; characterised by Risk.ValueSignalBounds |
| Risk.RoundHalfUp | oracle-service/src/aml.ts:71 | the result is the integer nearest to the input, with halves going up |
| Risk.Clamp | oracle-service/src/aml.ts:71 | `Math.max(0, Math.min(10, x))`: the result lies in the bounds, is the input when the input does, and is the nearer bound otherwise |
| Risk.Score | oracle-service/src/aml.ts:57-73 | risk is an integer in 0..10; it is 0 exactly when the raw sum is below 0.5, 10 exactly when it is at least 9.5, and otherwise the nearest integer to it; compliant holds iff risk <= 5; txCount is the history length |
| Risk.ComputeRisk | oracle-service/src/aml.ts:53-74 | risk in 0..10, compliant iff risk <= 5, and txCount is the number of matches capped at 20 |
| Risk.ActivityThresholds | oracle-service/src/aml.ts:67 | the activity signal of a score is 5 iff fewer than 3 transactions, 1 iff at least 10, otherwise 3; a longer history never gives a higher activity signal |
| Risk.FreshnessByMillis | oracle-service/src/aml.ts:58-68 | the freshness signal of a score is 4 iff the newest timestamp is non-zero and under 3,600,000 ms old, 2 iff it is 3,600,000 to 86,399,999 ms old, otherwise 0; an empty history or a missing or zero timestamp gives 0 |
| Risk.ValueSignalBounds | oracle-service/src/aml.ts:61-65 | with a non-negative total the value signal lies in 0..10, and on BTC it is always 0 |
| Risk.ValueTotalNonNegative | oracle-service/src/aml.ts:63 | non-negative values, with missing ones as 0, give a non-negative total |
| Risk.EmptyHistoryScoresFive | oracle-service/src/aml.ts:57-73 | an empty history gives signals (0, 9999, 0, 5, 0), risk 5 and compliant, on either chain |
| Risk.NoHistoryScoresFive | oracle-service/src/aml.ts:53-73 | a wallet with no matching rows scores 5 and is compliant |
| Risk.BtcRiskIsActivityPlusFreshness | oracle-service/src/aml.ts:61-71 | a BTC risk is exactly activity plus freshness, hence at most 9 |
| Risk.FreshSparseValuableIsMaximal | oracle-service/src/aml.ts:62-71 | an ETH history of fewer than 3 transactions, newest under an hour old, with values totalling at least 9 scores 10 and is not compliant |
| Crypto.Compact | oracle-service/src/controller.ts:66 | the transported signature is the first `min(64, length)` bytes of the fixed-length signature |
| Crypto.SignText | oracle-service/src/controller.ts:63-66 | the signature is at most 64 bytes; with correct primitives it is exactly 64 bytes and verifies over `sha256(utf8(text))` under the signer's public key |
| Crypto.SignForTransport | oracle-service/src/controller.ts:67 | base64-decoding the transported signature gives back the 64-byte signature |
| Crypto.SignatureBindsText | oracle-service/src/controller.ts:63-65 | a signature that verifies for a text other than the signed one implies a SHA-256 collision between distinct UTF-8 byte strings |
| Attestation.Ttl | oracle-service/src/controller.ts:61 | the time-to-live is 300 exactly when `ttlSeconds` is absent, 0 or 300, and otherwise is `ttlSeconds` |
| Attestation.Expires | oracle-service/src/controller.ts:61 | the expiry minus the time-to-live is the whole second in which `nowMs` falls |
| Attestation.EchoMaxRisk | oracle-service/src/controller.ts:77 | `maxRisk` is echoed unchanged unless it is absent or 0, which echo as absent |
| Attestation.EvaluateAml | oracle-service/src/controller.ts:56-82 | the response carries the request's wallet and chain and the assessment's risk, compliant and signals unchanged, scored at the first clock reading; its expiry is `floor(issueMs/1000) + ttl` from the second reading; its signature is over the canonical message of exactly those wallet, chain, risk and expiry values |
| Attestation.UpdateOracleData | oracle-service/src/controller.ts:24-44 | the pushed data is the message unchanged, and with correct primitives its signature decodes to 64 bytes that verify over the message's digest |
| Attestation.Canonical | oracle-service/src/controller.ts:62 | the canonical message is wallet, chain, risk and expiry joined by bars; characterised by Attestation.CanonicalSplits and Attestation.CanonicalInjective |
| Attestation.CanonicalSplits | oracle-service/src/controller.ts:62 | with no bar in wallet or chain, splitting the canonical message at the bars yields exactly wallet, chain, risk and expiry |
| Attestation.CanonicalInjective | oracle-service/src/controller.ts:62 | with no bar in wallets or chains, equal canonical messages mean equal wallet, chain, risk and expiry |
| Attestation.CanonicalAmbiguousWithBar | oracle-service/src/controller.ts:62 | a bar inside the wallet lets two different wallet and chain pairs share one canonical message |
| Attestation.MaxRiskNotSigned | oracle-service/src/controller.ts:58-77 | two requests that differ only in `maxRisk` get identical responses apart from the echoed `maxRisk` |
| Attestation.IssueExample | oracle-service/src/controller.ts:61-62 | `0xabc` on `eth` with risk 3, issued in second `t` with the default time-to-live, expires at `t + 300` and is signed as `0xabc`, `eth`, `3` and `t+300` joined by bars |
| Contract.SignedString | sample-contract/src/msg.rs:34 | the signed string is wallet, chain, risk and expiry joined by bars; characterised by Protocol.SignedStringIsCanonical |
| Contract.AmlCheckPasses | sample-contract/src/msg.rs:33-35 | the three checks: an accepted message is not past its expiry second under either reading, and a risk above `max_risk` is always rejected; characterised by Contract.AcceptanceMonotone and Contract.ExpiredIsRejected |
| Contract.ParseAmlCheck | sample-contract/src/msg.rs:36-44 | a `send_with_aml_check` message deserialises iff `max_risk` and `risk` fit `u8`, `expires` fits `u64` and the signature is base64, and then carries exactly those values |
| Contract.ParseOracleDataUpdate | sample-contract/src/msg.rs:31 | an `oracle_data_update` message deserialises iff its signature is base64, and then carries the data unchanged |
| Contract.AcceptanceMonotone | sample-contract/src/msg.rs:33-35 | a message accepted at some second with some `max_risk` is accepted at every earlier second and with every larger `max_risk` |
| Contract.ExpiredIsRejected | sample-contract/src/msg.rs:35 | after the expiry second nothing is accepted; under the strict reading the expiry second itself is rejected too |
| Protocol.SignedStringIsCanonical | sample-contract/src/msg.rs:34 | the contract's signed string (wallet, chain, risk and expiry joined by bars) is the oracle's canonical message for the same values |
| Protocol.ScoresFitWire | sample-contract/src/msg.rs:40-41 | every score `computeRisk` produces fits the `u8` risk field |
| Protocol.HonestAttestationAccepted | sample-contract/src/msg.rs:33-44 | an attestation from `evaluateAml`, with an expiry that fits `u64` and a `max_risk` that fits `u8`, deserialises; the contract accepts it iff it is unexpired and its risk is at most `max_risk` |
| Protocol.AcceptedOtherStringNeedsCollision | sample-contract/src/msg.rs:34-35 | if the contract accepts a signature issued for one canonical message on a message whose signed string is a different text, the two texts are distinct UTF-8 byte strings with equal SHA-256 digests; no condition on the fields |
| Protocol.TamperingNeedsCollision | sample-contract/src/msg.rs:34-35 | when no wallet or chain involved contains a bar: if the contract accepts a signature issued for one wallet, chain, risk and expiry on a message carrying other values, the two signed strings are distinct UTF-8 byte strings with equal SHA-256 digests |
| Protocol.OracleUpdateDelivered | sample-contract/src/msg.rs:31 | what `updateOracleData` submits deserialises as `OracleDataUpdate` with the payload unchanged and a 64-byte signature that verifies over its digest |

## Left out

- HTTP glue is not modelled because it holds no protocol logic. This covers Express routing, `asyncHandler`, `next(error)` forwarding, CORS, and the `getOracleData`, `getTransactions` and `sendWithAml` handlers, including their `Number(...)` coercions.
- The startup code is not modelled: the IIFE that loads the key and the clients, dotenv, and the global mutable state. The private key is a parameter.
- SQL execution and the database connection are not modelled. The two queries are functions over sequences of rows. Store failures other than a negative `LIMIT` are left out.
- History.BtcMatches: the `%` and `_` wildcards and backslash escapes of `ILIKE` are not modelled. A wallet containing them is matched literally. The case-insensitivity of `ILIKE` is modelled as ASCII lower-casing through `Text.Lower`; locale-dependent case folding is not modelled.
- History.SameAddress: `lower` folds ASCII letters only. Locale-dependent case folding is not modelled.
- History.SortNewestFirst: SQL leaves the order of equal timestamps open. The model fixes one admissible order.
- Risk.ValueSignal: `Math.log10` is an uninterpreted parameter. Floating point, `NaN`, `Infinity` and the `isFinite` test are not modelled, and neither is precision loss on wei-sized values. Values are reals, with `None` standing for a missing or non-numeric value. Negative totals are not modelled faithfully. In the source, a total below -1 gives a `NaN` risk. A total of exactly -1 gives `-Infinity`, and `Math.max(0, …)` turns that into risk 0. A total between -1 and 0 gives a finite negative signal and an integer risk.
- Risk.AgeHours: date-string parsing and `Date.now()` are not modelled. Timestamps and the current time are integer milliseconds, and an unparseable timestamp is modelled as missing.
- The primitives are not modelled: SHA-256, secp256k1 signing and verification, public-key derivation, base64, and `fromHex` of the key. `toUtf8` of unpaired UTF-16 surrogates is left out because a Dafny `char` is always a scalar value.
- Attestation.EvaluateAml: fractional or non-numeric `ttlSeconds` and `maxRisk` are not modelled, and neither are missing `wallet`/`chain` fields. String-typed `ttlSeconds` and `maxRisk` are not modelled either: a JSON string `"0"` is truthy, so it would give a time-to-live of 0 and an echoed `maxRisk` of 0, whereas the model takes both as numbers. Integers above 2^53 and JavaScript's exponent notation from 1e21 are not modelled either: rendering is exact decimal.
- The contract's handlers, its `Send` and `UpdateOracle` messages and its queries are not modelled. Only the message shapes and the documented `SendWithAmlCheck` checks are. The contract's check of an `OracleDataUpdate` is not given, so `Protocol.OracleUpdateDelivered` states only what such a check would need.
- Contract.AmlCheckPasses: the key comes from the `InstantiateMsg` configuration, but its `oracle_key_type` is not consulted. Only secp256k1 keys are modelled. The `ed25519` key type is not.
- Protocol.TamperingNeedsCollision: the result holds only when no issued or presented wallet or chain contains a bar. The canonical message does not escape the delimiter, so with a bar two field tuples can share one signed string (`Attestation.CanonicalAmbiguousWithBar`). It also assumes idealised unforgeability (`Crypto.Unforgeable`). It concludes a SHA-256 collision instead of assuming the hash is collision-free.
- Protocol.AcceptedOtherStringNeedsCollision: assumes idealised unforgeability (`Crypto.Unforgeable`).
- Attestation.EvaluateAml: no order between the two clock readings is assumed. In the source the expiry reading comes after scoring.
- `console.log` output is not modelled.

=== FILE: Attestation.dfy ===
/** The two signing handlers of the oracle service: `evaluateAml`, which scores a
    wallet and signs `wallet|chain|risk|expires`, and `updateOracleData`, which
    signs a raw payload for the on-chain oracle slot. The clock, the store, the
    private key and the primitives are parameters. */
module Attestation {
  import opened Base
  import opened Text
  import opened Decimal
  import opened History
  import opened Risk
  import opened Crypto

  const DefaultTtlSeconds: int := 300
  const Bar: char := '|'

  /** The time-to-live in seconds: `ttlSeconds` unless it is absent or 0 (both
      falsy), in which case 300. */
  function Ttl(ttlSeconds: Option<int>): (t: int)
    ensures t == DefaultTtlSeconds <==> ttlSeconds.None? || ttlSeconds.value in {0, DefaultTtlSeconds}
    ensures t != DefaultTtlSeconds ==> ttlSeconds == Some(t)
  {
    if ttlSeconds.Some? && ttlSeconds.value != 0 then ttlSeconds.value else DefaultTtlSeconds
  }

  /** `Math.floor(nowMs / 1000) + ttl`: the expiry is `ttl` seconds after the whole
      second in which the attestation is issued. */
  function Expires(nowMs: int, ttlSeconds: Option<int>): (e: int)
    ensures (e - Ttl(ttlSeconds)) * 1000 <= nowMs < (e - Ttl(ttlSeconds) + 1) * 1000
  {
    nowMs / 1000 + Ttl(ttlSeconds)
  }

  /** The canonical message `${wallet}|${chain}|${risk}|${expires}`. */
  function Canonical(wallet: string, chain: string, risk: int, expires: int): (m: string)
    ensures m == Join([wallet, chain, IntToString(risk), IntToString(expires)], Bar)
  {
    JoinFour(wallet, chain, IntToString(risk), IntToString(expires), Bar);
    wallet + [Bar] + chain + [Bar] + IntToString(risk) + [Bar] + IntToString(expires)
  }

  /** The request body of `POST /aml/evaluate`. */
  datatype AmlRequest = AmlRequest(wallet: string, chain: string, maxRisk: Option<int>, ttlSeconds: Option<int>)

  /** The JSON response of `evaluateAml`; `signature` is base64. */
  datatype AmlResponse = AmlResponse(
    wallet: string,
    chain: string,
    risk: int,
    compliant: bool,
    signals: Signals,
    expires: int,
    signature: string,
    maxRisk: Option<int>)

  /** `maxRisk ? Number(maxRisk) : undefined`: a zero bound is falsy and dropped. */
  function EchoMaxRisk(maxRisk: Option<int>): (echo: Option<int>)
    ensures echo.None? <==> maxRisk.None? || maxRisk.value == 0
    ensures echo.Some? ==> echo == maxRisk
  {
    if maxRisk.Some? && maxRisk.value != 0 then maxRisk else None
  }

  /** `evaluateAml`: score the wallet, bind the score to an expiry in the canonical
      message, sign it, and answer with the very values that were signed. The clock
      is read twice: `scoreMs` when the history is scored, `issueMs` when the expiry
      is computed after scoring has finished. */
  function EvaluateAml(
    req: AmlRequest, store: Store, scoreMs: int, issueMs: int, log10: real -> real,
    suite: Suite, privateKey: seq<byte>)
    : (r: AmlResponse)
    ensures r.wallet == req.wallet && r.chain == req.chain
    ensures r.expires == Expires(issueMs, req.ttlSeconds)
    ensures r.signature == SignForTransport(suite, privateKey, Canonical(r.wallet, r.chain, r.risk, r.expires))
    ensures 0 <= r.risk <= 10
    ensures r.compliant <==> r.risk <= ComplianceLine
    ensures var a := ComputeRisk(store, req.wallet, req.chain, scoreMs, log10);
      r.risk == a.risk && r.compliant == a.compliant && r.signals == a.signals
    ensures r.maxRisk == EchoMaxRisk(req.maxRisk)
  {
    var assessment := ComputeRisk(store, req.wallet, req.chain, scoreMs, log10);
    var expires := Expires(issueMs, req.ttlSeconds);
    var canonical := Canonical(req.wallet, req.chain, assessment.risk, expires);
    AmlResponse(
      req.wallet,
      req.chain,
      assessment.risk,
      assessment.compliant,
      assessment.signals,
      expires,
      SignForTransport(suite, privateKey, canonical),
      EchoMaxRisk(req.maxRisk))
  }

  /** What `updateOracleData` submits: the payload unchanged and its base64 signature. */
  datatype OracleDataPush = OracleDataPush(data: string, signature: string)

  /** `updateOracleData`: sign the raw payload and push it unchanged. */
  function UpdateOracleData(msg: string, suite: Suite, privateKey: seq<byte>): (p: OracleDataPush)
    ensures p.data == msg
    ensures Correct(suite) ==>
      exists rs :: suite.base64Decode(p.signature) == Some(rs) && |rs| == CompactLength
        && suite.verify(suite.publicKey(privateKey), Digest(suite, msg), rs)
  {
    var rs := SignText(suite, privateKey, msg);
    OracleDataPush(msg, suite.base64Encode(rs))
  }

  /** With no `|` in the wallet or the chain, splitting the canonical message on
      `|` recovers exactly its four fields. */
  lemma CanonicalSplits(wallet: string, chain: string, risk: int, expires: int)
    requires Bar !in wallet && Bar !in chain
    ensures Split(Canonical(wallet, chain, risk, expires), Bar)
         == [wallet, chain, IntToString(risk), IntToString(expires)]
  {
    var fields := [wallet, chain, IntToString(risk), IntToString(expires)];
    RenderedHasNoBar(risk);
    RenderedHasNoBar(expires);
    SplitJoin(fields, Bar);
  }

  /** With no `|` in the wallets or chains, equal canonical messages have equal fields. */
  lemma CanonicalInjective(
    w1: string, c1: string, r1: int, e1: int, w2: string, c2: string, r2: int, e2: int)
    requires Bar !in w1 && Bar !in c1 && Bar !in w2 && Bar !in c2
    requires Canonical(w1, c1, r1, e1) == Canonical(w2, c2, r2, e2)
    ensures w1 == w2 && c1 == c2 && r1 == r2 && e1 == e2
  {
    CanonicalSplits(w1, c1, r1, e1);
    CanonicalSplits(w2, c2, r2, e2);
    var f1 := [w1, c1, IntToString(r1), IntToString(e1)];
    var f2 := [w2, c2, IntToString(r2), IntToString(e2)];
    assert f1 == f2;
    assert f1[2] == f2[2] && f1[3] == f2[3];
    IntToStringInjective(r1, r2);
    IntToStringInjective(e1, e2);
  }

  /** The delimiter is not escaped: a `|` inside the wallet makes two different
      (wallet, chain) pairs share one canonical message. */
  lemma CanonicalAmbiguousWithBar(risk: int, expires: int)
    ensures Canonical("a|b", "eth", risk, expires) == Canonical("a", "b|eth", risk, expires)
  {
  }

  /** The request's `maxRisk` never reaches the signed message: two requests that
      differ only in `maxRisk` get identical responses apart from the echo. */
  lemma MaxRiskNotSigned(
    req: AmlRequest, maxRisk: Option<int>, store: Store, scoreMs: int, issueMs: int, log10: real -> real,
    suite: Suite, privateKey: seq<byte>)
    ensures var r1 := EvaluateAml(req, store, scoreMs, issueMs, log10, suite, privateKey);
      var r2 := EvaluateAml(req.(maxRisk := maxRisk), store, scoreMs, issueMs, log10, suite, privateKey);
      r2 == r1.(maxRisk := EchoMaxRisk(maxRisk))
  {
  }

  /** The worked example: `0xabc` on `eth` scored 3, issued at second `t` with the
      default time-to-live, is signed as `0xabc|eth|3|<t + 300>`. */
  lemma IssueExample(t: nat, millis: int)
    requires 0 <= millis < 1000
    ensures Expires(t * 1000 + millis, None) == t + 300
    ensures Canonical("0xabc", "eth", 3, Expires(t * 1000 + millis, None))
         == "0xabc|eth|3|" + NatToString(t + 300)
  {
    assert (t * 1000 + millis) / 1000 == t;
  }
}

=== FILE: Base.dfy ===
/** Small shared vocabulary: bytes, optional values and results. */
module Base {

  /** An octet, as carried by `Uint8Array` on the oracle side and `Binary` on the contract side. */
  newtype byte = x: int | 0 <= x < 256

  /** A value that may be absent: `undefined` in TypeScript, SQL `NULL`, Rust `Option::None`. */
  datatype Option<+T> = None | Some(value: T) {

    /** The value, or `default` when absent. */
    function GetOr(default: T): T {
      match this
      case Some(v) => v
      case None => default
    }
  }

  /** The outcome of an operation that can fail with an error of type `E`. */
  datatype Result<+T, +E> = Success(value: T) | Failure(error: E)

  function Min(a: int, b: int): (m: int)
    ensures m <= a && m <= b
    ensures m == a || m == b
  {
    if a <= b then a else b
  }
}

=== FILE: Contract.dfy ===
/** The verifier side: the execute messages of the sample CosmWasm contract and the
    acceptance rule documented for `SendWithAmlCheck`. Only the message shapes and
    the documented checks are modelled; the contract's handlers are not part of
    this model. */
module Contract {
  import opened Base
  import opened Text
  import opened Decimal
  import opened Crypto

  const U8Bound: int := 0x100
  const U64Bound: int := 0x1_0000_0000_0000_0000

  newtype u8 = x: int | 0 <= x < U8Bound
  newtype u64 = x: int | 0 <= x < U64Bound

  /** The contract's configuration: the oracle's public key and its key type. The
      acceptance rule reads the key; the key type is carried but not consulted,
      since the primitives of this model are secp256k1 only. */
  datatype InstantiateMsg = InstantiateMsg(oraclePubkey: seq<byte>, oracleKeyType: string)

  /** `ExecuteMsg`; `Binary` fields hold the decoded bytes. */
  datatype ExecuteMsg =
    | Send(recipient: string)
    | OracleDataUpdate(data: string, signature: seq<byte>)
    | UpdateOracle(newPubkey: seq<byte>, newKeyType: Option<string>)
    | SendWithAmlCheck(
        recipient: string,
        wallet: string,
        chain: string,
        maxRisk: u8,
        risk: u8,
        expires: u64,
        signature: seq<byte>)

  /** The string the contract expects the oracle to have signed,
      `"{wallet}|{chain}|{risk}|{expires}"` with Rust's decimal formatting. */
  function SignedString(wallet: string, chain: string, risk: u8, expires: u64): (m: string)
    ensures m == Join([wallet, chain, NatToString(risk as nat), NatToString(expires as nat)], '|')
  {
    JoinFour(wallet, chain, NatToString(risk as nat), NatToString(expires as nat), '|');
    wallet + "|" + chain + "|" + NatToString(risk as nat) + "|" + NatToString(expires as nat)
  }

  /** Whether "not expired" admits the expiry second itself is not fixed by the
      message definitions, so both readings are kept. */
  datatype ExpiryRule = BeforeExpiry | UntilExpiry

  predicate Unexpired(rule: ExpiryRule, nowSecs: int, expires: int) {
    match rule
    case BeforeExpiry => nowSecs < expires
    case UntilExpiry => nowSecs <= expires
  }

  /** The three documented checks of `SendWithAmlCheck`: the signature verifies
      against the configured oracle key over `sha256` of the signed string, the
      attestation has not expired, and `risk <= max_risk`. */
  predicate AmlCheckPasses(suite: Suite, config: InstantiateMsg, msg: ExecuteMsg, nowSecs: int, rule: ExpiryRule)
    : (ok: bool)
    requires msg.SendWithAmlCheck?
    ensures ok ==> nowSecs <= msg.expires as int
    ensures msg.maxRisk < msg.risk ==> !ok
  {
    && suite.verify(config.oraclePubkey, Digest(suite, SignedString(msg.wallet, msg.chain, msg.risk, msg.expires)), msg.signature)
    && Unexpired(rule, nowSecs, msg.expires as int)
    && msg.risk <= msg.maxRisk
  }

  /** Deserialising a `send_with_aml_check` message from JSON values: each integer
      must fit its Rust type and the signature must be valid base64. */
  function ParseAmlCheck(
    suite: Suite, recipient: string, wallet: string, chain: string,
    maxRisk: int, risk: int, expires: int, signature: string)
    : (m: Option<ExecuteMsg>)
    ensures m.Some? <==>
      && 0 <= maxRisk < U8Bound && 0 <= risk < U8Bound && 0 <= expires < U64Bound
      && suite.base64Decode(signature).Some?
    ensures m.Some? ==>
      && m.value.SendWithAmlCheck?
      && m.value == SendWithAmlCheck(recipient, wallet, chain, maxRisk as u8, risk as u8, expires as u64,
                                     suite.base64Decode(signature).value)
  {
    if 0 <= maxRisk < U8Bound && 0 <= risk < U8Bound && 0 <= expires < U64Bound then
      match suite.base64Decode(signature)
      case Some(bytes) =>
        Some(SendWithAmlCheck(recipient, wallet, chain, maxRisk as u8, risk as u8, expires as u64, bytes))
      case None => None
    else None
  }

  /** Deserialising an `oracle_data_update` message: the signature must be valid base64. */
  function ParseOracleDataUpdate(suite: Suite, data: string, signature: string): (m: Option<ExecuteMsg>)
    ensures m.Some? <==> suite.base64Decode(signature).Some?
    ensures m.Some? ==> m.value == OracleDataUpdate(data, suite.base64Decode(signature).value)
  {
    match suite.base64Decode(signature)
    case Some(bytes) => Some(OracleDataUpdate(data, bytes))
    case None => None
  }

  /** Acceptance only gets harder with time and easier with a looser bound: a
      message accepted at some second with some `max_risk` is accepted at every
      earlier second and with every larger `max_risk`. */
  lemma AcceptanceMonotone(
    suite: Suite, config: InstantiateMsg, msg: ExecuteMsg, nowSecs: int, earlier: int, looser: u8, rule: ExpiryRule)
    requires msg.SendWithAmlCheck?
    requires AmlCheckPasses(suite, config, msg, nowSecs, rule)
    requires earlier <= nowSecs && msg.maxRisk <= looser
    ensures AmlCheckPasses(suite, config, msg.(maxRisk := looser), earlier, rule)
  {
  }

  /** Once the expiry second has passed, nothing is accepted, however well signed;
      under the strict reading the expiry second itself is already too late. */
  lemma ExpiredIsRejected(suite: Suite, config: InstantiateMsg, msg: ExecuteMsg, nowSecs: int, rule: ExpiryRule)
    requires msg.SendWithAmlCheck?
    requires nowSecs > msg.expires as int || (rule == BeforeExpiry && nowSecs == msg.expires as int)
    ensures !AmlCheckPasses(suite, config, msg, nowSecs, rule)
  {
  }
}

=== FILE: Crypto.dfy ===
/** The signing pipeline shared by attestations and oracle-data pushes: SHA-256 of
    the UTF-8 bytes, a secp256k1 signature, its first 64 bytes (`r || s`), base64.
    The primitives themselves are foreign code; they enter as a `Suite` of
    functions, and what is assumed of them is stated as predicates on the suite. */
module Crypto {
  import opened Base
  import Utf8

  /** The foreign primitives. `sign(digest, privateKey)` returns the fixed-length
      signature (`toFixedLength()`); `verify(publicKey, digest, rs)` checks a
      64-byte `r || s` signature. */
  datatype Suite = Suite(
    sha256: seq<byte> -> seq<byte>,
    sign: (seq<byte>, seq<byte>) -> seq<byte>,
    publicKey: seq<byte> -> seq<byte>,
    verify: (seq<byte>, seq<byte>, seq<byte>) -> bool,
    base64Encode: seq<byte> -> string,
    base64Decode: string -> Option<seq<byte>>)

  /** Length of the transported `r || s` signature. */
  const CompactLength: nat := 64
  /** Length of a SHA-256 digest. */
  const DigestLength: nat := 32

  /** The primitives do their job: digests are 32 bytes, a fixed-length signature
      has at least 64 bytes and its `r || s` part verifies under the matching public
      key, and base64 decoding undoes encoding. */
  ghost predicate Correct(s: Suite) {
    && (forall b :: |s.sha256(b)| == DigestLength)
    && (forall d, sk :: |s.sign(d, sk)| >= CompactLength)
    && (forall d, sk :: s.verify(s.publicKey(sk), d, Compact(s.sign(d, sk))))
    && (forall b :: s.base64Decode(s.base64Encode(b)) == Some(b))
  }

  /** Unforgeability, idealised: the `r || s` signature of one digest verifies for
      no other digest under the signer's public key. */
  ghost predicate Unforgeable(s: Suite) {
    forall sk, d, d' ::
      (|d| == DigestLength && |d'| == DigestLength && s.verify(s.publicKey(sk), d', Compact(s.sign(d, sk))))
      ==> d' == d
  }

  /** `slice(0, 64)`: the first 64 bytes, or all of a shorter array. */
  function Compact(sig: seq<byte>): (rs: seq<byte>)
    ensures |rs| == Min(CompactLength, |sig|)
    ensures rs == sig[..|rs|]
  {
    if |sig| <= CompactLength then sig else sig[..CompactLength]
  }

  /** `sha256(toUtf8(text))`. */
  function Digest(s: Suite, text: string): seq<byte> {
    s.sha256(Utf8.Encode(text))
  }

  /** The `r || s` signature of a text's digest under `privateKey`. */
  function SignText(s: Suite, privateKey: seq<byte>, text: string): (rs: seq<byte>)
    ensures |rs| <= CompactLength
    ensures Correct(s) ==> |rs| == CompactLength
    ensures Correct(s) ==> s.verify(s.publicKey(privateKey), Digest(s, text), rs)
  {
    Compact(s.sign(Digest(s, text), privateKey))
  }

  /** The signature as transported: base64 of the `r || s` bytes. */
  function SignForTransport(s: Suite, privateKey: seq<byte>, text: string): (b64: string)
    ensures Correct(s) ==> s.base64Decode(b64) == Some(SignText(s, privateKey, text))
  {
    s.base64Encode(SignText(s, privateKey, text))
  }

  /** A transported signature verifies only for the text it was made for, up to a
      SHA-256 collision: if it verifies for another text, the two texts have equal
      digests although their UTF-8 bytes differ. */
  lemma SignatureBindsText(s: Suite, privateKey: seq<byte>, signed: string, other: string)
    requires Correct(s) && Unforgeable(s)
    requires s.verify(s.publicKey(privateKey), Digest(s, other), SignText(s, privateKey, signed))
    ensures Digest(s, other) == Digest(s, signed)
    ensures other != signed ==> Utf8.Encode(other) != Utf8.Encode(signed)
  {
    if other != signed && Utf8.Encode(other) == Utf8.Encode(signed) {
      Utf8.EncodeInjective(other, signed);
    }
  }
}

=== FILE: Decimal.dfy ===
/** Decimal rendering of integers, as JavaScript template literals render a safe
    integer and as Rust's `{}` renders a `u8` or `u64`: no leading zeros, a leading
    `-` for negatives. */
module Decimal {

  predicate IsDigit(c: char) {
    '0' <= c <= '9'
  }

  function DigitChar(d: int): (c: char)
    requires 0 <= d < 10
    ensures IsDigit(c)
    ensures c as int - '0' as int == d
  {
    ('0' as int + d) as char
  }

  /** Base-10 digits of `n`, most significant first. */
  function NatToString(n: nat): (s: string)
    ensures |s| >= 1
    ensures forall i :: 0 <= i < |s| ==> IsDigit(s[i])
    ensures n > 0 ==> s[0] != '0'
    ensures n == 0 <==> s == "0"
    decreases n
  {
    if n < 10 then [DigitChar(n)] else NatToString(n / 10) + [DigitChar(n % 10)]
  }

  /** The value of a string of digits. */
  function ParseNat(s: string): nat
    requires forall i :: 0 <= i < |s| ==> IsDigit(s[i])
    decreases |s|
  {
    if |s| == 0 then 0
    else
      assert IsDigit(s[|s| - 1]);
      ParseNat(s[..|s| - 1]) * 10 + (s[|s| - 1] as int - '0' as int)
  }

  /** Reading back the rendered digits gives the number. */
  lemma {:induction false} ParseRendered(n: nat)
    ensures ParseNat(NatToString(n)) == n
    decreases n
  {
    if n >= 10 {
      var s := NatToString(n);
      assert s[..|s| - 1] == NatToString(n / 10);
      ParseRendered(n / 10);
    }
  }

  /** Distinct numbers render differently. */
  lemma NatToStringInjective(a: nat, b: nat)
    requires NatToString(a) == NatToString(b)
    ensures a == b
  {
    ParseRendered(a);
    ParseRendered(b);
  }

  /** `String(i)` for an integer `i`. */
  function IntToString(i: int): (s: string)
    ensures |s| >= 1
    ensures i >= 0 ==> s == NatToString(i)
    ensures i < 0 <==> s[0] == '-'
    ensures forall k :: 0 <= k < |s| ==> IsDigit(s[k]) || (k == 0 && s[k] == '-')
  {
    if i < 0 then "-" + NatToString(-i) else NatToString(i)
  }

  /** Distinct integers render differently. */
  lemma IntToStringInjective(a: int, b: int)
    requires IntToString(a) == IntToString(b)
    ensures a == b
  {
    if a < 0 && b < 0 {
      assert NatToString(-a) == IntToString(a)[1..];
      NatToStringInjective(-a, -b);
    } else if a >= 0 && b >= 0 {
      NatToStringInjective(a, b);
    }
  }

  /** Rendered numbers never contain the field delimiter `|`. */
  lemma RenderedHasNoBar(i: int)
    ensures '|' !in IntToString(i)
  {
    var s := IntToString(i);
    forall k | 0 <= k < |s| ensures s[k] != '|' {
    }
  }
}

=== FILE: History.dfy ===
/** The history provider: the two store queries behind `getRecentTransactions`,
    modelled as pure functions over in-memory tables. Each query is a filter, a
    newest-first sort and a `LIMIT`. */
module History {
  import opened Base
  import opened Text

  datatype Chain = Eth | Btc

  /** The query branch taken for a chain name: only the exact text `eth` selects
      the ETH query, every other name falls through to the BTC query. */
  function ChainOf(name: string): (c: Chain)
    ensures c == Eth <==> name == "eth"
  {
    if name == "eth" then Eth else Btc
  }

  /** A row of the `transactions` table. `fromAddress` is the column the query
      reads as `fromm_address` (so spelled in the table) and `toAddress` is
      `to_address`. A timestamp is in milliseconds since the epoch, `None` for SQL
      `NULL`; `value` is `None` when `NULL` or not numeric. */
  datatype EthRow = EthRow(
    hash: string,
    blockTimestamp: Option<int>,
    fromAddress: Option<string>,
    toAddress: Option<string>,
    value: Option<real>)

  /** A row of the BTC `inputs` or `outputs` table; `addresses` packs every address
      of the input or output into one text. */
  datatype IoRow = IoRow(transactionHash: string, blockTimestamp: Option<int>, addresses: Option<string>)

  /** The three tables the queries read. */
  datatype Store = Store(transactions: seq<EthRow>, inputs: seq<IoRow>, outputs: seq<IoRow>)

  /** `TxRecord`: what a query returns for one row, tagged with its chain. */
  datatype TxRecord = TxRecord(
    hash: string,
    blockTimestamp: Option<int>,
    from: Option<string>,
    to: Option<string>,
    value: Option<real>,
    chain: Chain)

  /** The store refuses a negative `LIMIT`. */
  datatype QueryError = NegativeLimit(limit: int)

  const DefaultLimit: nat := 20

  /** `lower(column) = lower(wallet)`; a `NULL` column never matches. */
  predicate SameAddress(column: Option<string>, wallet: string) {
    column.Some? && Lower(column.value) == Lower(wallet)
  }

  predicate EthMatches(row: EthRow, wallet: string) {
    SameAddress(row.fromAddress, wallet) || SameAddress(row.toAddress, wallet)
  }

  /** `addresses ILIKE '%' || wallet || '%'`, for a wallet without `%` or `_`. */
  predicate BtcMatches(row: IoRow, wallet: string) {
    row.addresses.Some? && Contains(Lower(row.addresses.value), Lower(wallet))
  }

  function EthRecord(row: EthRow): TxRecord {
    TxRecord(row.hash, row.blockTimestamp, row.fromAddress, row.toAddress, row.value, Eth)
  }

  /** A BTC record carries only the hash and the timestamp. */
  function BtcRecord(row: IoRow): TxRecord {
    TxRecord(row.transactionHash, row.blockTimestamp, None, None, None, Btc)
  }

  predicate BtcShaped(t: TxRecord) {
    t.chain == Btc && t.from.None? && t.to.None? && t.value.None?
  }

  /** The matching rows of the `transactions` table, in table order. */
  function SelectEth(rows: seq<EthRow>, wallet: string): (r: seq<TxRecord>)
    ensures forall t :: t in r ==> t.chain == Eth
    ensures |r| <= |rows|
    ensures forall row :: multiset(r)[EthRecord(row)] == if EthMatches(row, wallet) then multiset(rows)[row] else 0
    decreases |rows|
  {
    if |rows| == 0 then []
    else
      assert rows == [rows[0]] + rows[1..];
      if EthMatches(rows[0], wallet) then [EthRecord(rows[0])] + SelectEth(rows[1..], wallet)
      else SelectEth(rows[1..], wallet)
  }

  /** How many rows of `rows` match `wallet` and project to `t`. */
  function MatchCount(rows: seq<IoRow>, wallet: string, t: TxRecord): nat
    decreases |rows|
  {
    if |rows| == 0 then 0
    else (if BtcMatches(rows[0], wallet) && BtcRecord(rows[0]) == t then 1 else 0)
         + MatchCount(rows[1..], wallet, t)
  }

  /** The matching rows of one BTC table, projected to hash and timestamp. */
  function SelectBtc(rows: seq<IoRow>, wallet: string): (r: seq<TxRecord>)
    ensures forall t :: t in r ==> BtcShaped(t)
    ensures |r| <= |rows|
    ensures forall t :: multiset(r)[t] == MatchCount(rows, wallet, t)
    decreases |rows|
  {
    if |rows| == 0 then []
    else if BtcMatches(rows[0], wallet) then [BtcRecord(rows[0])] + SelectBtc(rows[1..], wallet)
    else SelectBtc(rows[1..], wallet)
  }

  /** Every row the query selects, before ordering and limiting; for BTC the
      `UNION ALL` of the inputs and outputs matches, duplicates kept. */
  function Matched(store: Store, wallet: string, chain: Chain): (r: seq<TxRecord>)
    ensures forall t :: t in r ==> t.chain == chain
    ensures chain == Btc ==> forall t :: t in r ==> BtcShaped(t)
    ensures chain == Eth ==> |r| <= |store.transactions|
    ensures chain == Btc ==> |r| <= |store.inputs| + |store.outputs|
  {
    match chain
    case Eth => SelectEth(store.transactions, wallet)
    case Btc => SelectBtc(store.inputs, wallet) + SelectBtc(store.outputs, wallet)
  }

  /** `ORDER BY block_timestamp DESC` as PostgreSQL does it: `NULL` first, then
      later timestamps before earlier ones. */
  predicate NewerOrSame(a: TxRecord, b: TxRecord) {
    a.blockTimestamp.None? || (b.blockTimestamp.Some? && a.blockTimestamp.value >= b.blockTimestamp.value)
  }

  predicate NewestFirst(s: seq<TxRecord>) {
    forall i, j :: 0 <= i < j < |s| ==> NewerOrSame(s[i], s[j])
  }

  function Insert(x: TxRecord, s: seq<TxRecord>): (r: seq<TxRecord>)
    requires NewestFirst(s)
    ensures NewestFirst(r)
    ensures multiset(r) == multiset(s) + multiset{x}
    decreases |s|
  {
    if |s| == 0 then [x]
    else if NewerOrSame(x, s[0]) then [x] + s
    else
      assert s == [s[0]] + s[1..];
      var tail := Insert(x, s[1..]);
      assert forall k :: 0 <= k < |tail| ==> tail[k] in multiset(s[1..]) + multiset{x};
      [s[0]] + tail
  }

  /** Orders the selected rows newest first (the order among equal timestamps is
      left open by SQL; this is one admissible choice). */
  function SortNewestFirst(s: seq<TxRecord>): (r: seq<TxRecord>)
    ensures NewestFirst(r)
    ensures multiset(r) == multiset(s)
    decreases |s|
  {
    if |s| == 0 then []
    else
      assert s == [s[0]] + s[1..];
      Insert(s[0], SortNewestFirst(s[1..]))
  }

  /** `LIMIT k`: the first `k` records, or all of them when there are fewer. */
  function Take(s: seq<TxRecord>, k: nat): (r: seq<TxRecord>)
    ensures |r| == Min(k, |s|)
    ensures r == s[..|r|]
  {
    if k < |s| then s[..k] else s
  }

  /** Every selected record is tagged with the queried chain, and BTC records are hash and timestamp only. */
  lemma MatchedTagged(store: Store, wallet: string, chain: Chain)
    ensures forall t :: t in Matched(store, wallet, chain) ==> t.chain == chain
    ensures chain == Btc ==> forall t :: t in Matched(store, wallet, chain) ==> BtcShaped(t)
  {
  }

  /** A prefix of a sequence takes no element more often than the sequence holds it. */
  lemma PrefixSubMultiset(s: seq<TxRecord>, n: nat)
    requires n <= |s|
    ensures multiset(s[..n]) <= multiset(s)
  {
    assert s == s[..n] + s[n..];
  }

  /** The query for a valid limit. */
  function Recent(store: Store, wallet: string, chain: Chain, limit: nat): (r: seq<TxRecord>)
    ensures |r| == Min(limit, |Matched(store, wallet, chain)|)
    ensures NewestFirst(r)
    ensures multiset(r) <= multiset(Matched(store, wallet, chain))
    ensures forall t :: t in r ==> t.chain == chain
    ensures chain == Btc ==> forall t :: t in r ==> BtcShaped(t)
  {
    var matched := Matched(store, wallet, chain);
    MatchedTagged(store, wallet, chain);
    var sorted := SortNewestFirst(matched);
    var r := Take(sorted, limit);
    PrefixSubMultiset(sorted, |r|);
    assert forall t :: t in r ==> t in matched by {
      forall t | t in r ensures t in matched {
        assert t in multiset(r);
        assert t in multiset(sorted);
        assert t in multiset(matched);
      }
    }
    r
  }

  /** `getRecentTransactions({wallet, chain, limit})`, the limit defaulting to 20. */
  function GetRecentTransactions(store: Store, wallet: string, chain: Chain, limit: Option<int>)
    : (r: Result<seq<TxRecord>, QueryError>)
    ensures r.Failure? <==> limit.Some? && limit.value < 0
    ensures r.Success? ==> |r.value| <= limit.GetOr(DefaultLimit)
    ensures r.Success? ==> |r.value| == Min(limit.GetOr(DefaultLimit), |Matched(store, wallet, chain)|)
    ensures r.Success? ==> NewestFirst(r.value)
    ensures r.Success? ==> multiset(r.value) <= multiset(Matched(store, wallet, chain))
    ensures r.Success? ==> forall t :: t in r.value ==> t.chain == chain
  {
    var k := limit.GetOr(DefaultLimit);
    if k < 0 then Failure(NegativeLimit(k)) else Success(Recent(store, wallet, chain, k))
  }

  /** A prefix of a newest-first sequence is no older than what remains. */
  lemma PrefixIsNewest(sorted: seq<TxRecord>, n: nat)
    requires NewestFirst(sorted) && n <= |sorted|
    ensures forall x, y :: x in sorted[..n] && y in multiset(sorted) - multiset(sorted[..n]) ==> NewerOrSame(x, y)
  {
    var r := sorted[..n];
    var rest := sorted[n..];
    assert sorted == r + rest;
    assert multiset(sorted) - multiset(r) == multiset(rest);
    forall x, y | x in r && y in multiset(sorted) - multiset(r)
      ensures NewerOrSame(x, y)
    {
      var i :| 0 <= i < |r| && r[i] == x;
      assert y in rest;
      var j :| 0 <= j < |rest| && rest[j] == y;
      assert sorted[i] == x && sorted[n + j] == y;
    }
  }

  /** What `LIMIT` keeps is the newest part of the selection: every selected record
      that was cut off is no newer than any record returned. */
  lemma RecentIsNewest(store: Store, wallet: string, chain: Chain, limit: nat)
    ensures var r := Recent(store, wallet, chain, limit);
      forall x, y :: x in r && y in multiset(Matched(store, wallet, chain)) - multiset(r) ==> NewerOrSame(x, y)
  {
    var matched := Matched(store, wallet, chain);
    var sorted := SortNewestFirst(matched);
    var r := Recent(store, wallet, chain, limit);
    assert r == sorted[..|r|];
    PrefixIsNewest(sorted, |r|);
  }

  /** ETH selection is exact, case-insensitive equality with the sender or the
      receiver: a row's record is selected exactly when the row matches. */
  lemma EthSelectionIff(store: Store, wallet: string, row: EthRow)
    ensures EthRecord(row) in Matched(store, wallet, Eth)
        <==> row in store.transactions && EthMatches(row, wallet)
  {
    var m := Matched(store, wallet, Eth);
    assert multiset(m)[EthRecord(row)] > 0 <==> EthRecord(row) in m;
  }

  /** The BTC selection is a `UNION ALL`: a record occurs once per matching input
      row plus once per matching output row. */
  lemma BtcUnionAllCounts(store: Store, wallet: string, t: TxRecord)
    ensures multiset(Matched(store, wallet, Btc))[t]
         == MatchCount(store.inputs, wallet, t) + MatchCount(store.outputs, wallet, t)
  {
  }

  lemma {:induction false} MatchCountPositive(rows: seq<IoRow>, wallet: string, row: IoRow)
    requires row in rows && BtcMatches(row, wallet)
    ensures MatchCount(rows, wallet, BtcRecord(row)) >= 1
    decreases |rows|
  {
    if rows[0] != row {
      MatchCountPositive(rows[1..], wallet, row);
    }
  }

  /** A transaction whose input and output both match is selected twice, and so
      counts twice towards the history length. */
  lemma BtcMatchedInBothTablesTwice(store: Store, wallet: string, input: IoRow, output: IoRow)
    requires input in store.inputs && BtcMatches(input, wallet)
    requires output in store.outputs && BtcMatches(output, wallet)
    requires input.transactionHash == output.transactionHash
    requires input.blockTimestamp == output.blockTimestamp
    ensures multiset(Matched(store, wallet, Btc))[BtcRecord(input)] >= 2
  {
    MatchCountPositive(store.inputs, wallet, input);
    MatchCountPositive(store.outputs, wallet, output);
    BtcUnionAllCounts(store, wallet, BtcRecord(input));
  }

  /** A query wallet that is only a substring of a stored address list still
      matches: the BTC match is a containment heuristic, not address equality. */
  lemma BtcSubstringMatches()
    ensures BtcMatches(IoRow("t1", Some(0), Some("{1ABCD,3xyz}")), "1abc")
  {
    var hay := Lower("{1ABCD,3xyz}");
    assert hay[1..5] == Lower("1abc");
    assert OccursAt(hay, Lower("1abc"), 1);
    OccurrenceIsFound(hay, Lower("1abc"), 1);
  }

  /** ETH matching is equality, not containment: a prefix of an address does not match. */
  lemma EthPrefixDoesNotMatch()
    ensures !EthMatches(EthRow("h", Some(0), Some("0xABC"), None, None), "0xab")
    ensures EthMatches(EthRow("h", Some(0), Some("0xABC"), None, None), "0xabc")
  {
    assert |Lower("0xABC")| != |Lower("0xab")|;
  }

  /** Because `NULL` sorts first, one selected row without a timestamp becomes the
      newest record of every non-empty result. */
  lemma NullTimestampComesFirst(store: Store, wallet: string, chain: Chain, limit: nat, t: TxRecord)
    requires t in Matched(store, wallet, chain) && t.blockTimestamp.None?
    requires limit > 0
    ensures |Recent(store, wallet, chain, limit)| > 0
    ensures Recent(store, wallet, chain, limit)[0].blockTimestamp.None?
  {
    var matched := Matched(store, wallet, chain);
    var sorted := SortNewestFirst(matched);
    assert t in multiset(sorted);
    var j :| 0 <= j < |sorted| && sorted[j] == t;
    assert j == 0 || NewerOrSame(sorted[0], sorted[j]);
  }
}

=== FILE: Protocol.dfy ===
/** The signer and the verifier together: what the oracle service issues is what
    the contract accepts, and nothing else is. */
module Protocol {
  import opened Base
  import opened Decimal
  import Utf8
  import opened History
  import opened Risk
  import opened Crypto
  import opened Attestation
  import opened Contract

  /** The contract rebuilds exactly the oracle's canonical message for the same values. */
  lemma SignedStringIsCanonical(wallet: string, chain: string, risk: u8, expires: u64)
    ensures SignedString(wallet, chain, risk, expires) == Canonical(wallet, chain, risk as int, expires as int)
  {
    assert IntToString(risk as int) == NatToString(risk as nat);
    assert IntToString(expires as int) == NatToString(expires as nat);
  }

  /** Every score `computeRisk` can produce fits the contract's `u8` risk field. */
  lemma ScoresFitWire(store: Store, wallet: string, chainName: string, nowMs: int, log10: real -> real)
    ensures 0 <= ComputeRisk(store, wallet, chainName, nowMs, log10).risk < U8Bound
  {
  }

  /** The contract configured with the oracle's public key. */
  function OracleConfig(suite: Suite, privateKey: seq<byte>): InstantiateMsg {
    InstantiateMsg(suite.publicKey(privateKey), "secp256k1")
  }

  /** The headline property. An attestation issued by `evaluateAml`, whose expiry
      fits the `u64` field and which is presented with a `max_risk` that fits `u8`,
      deserialises, and the contract accepts it exactly when it is presented before
      expiry and its risk is within `max_risk`. */
  lemma HonestAttestationAccepted(
    req: AmlRequest, store: Store, scoreMs: int, issueMs: int, log10: real -> real, suite: Suite,
    privateKey: seq<byte>, recipient: string, maxRisk: int, nowSecs: int, rule: ExpiryRule)
    requires Correct(suite)
    requires 0 <= Expires(issueMs, req.ttlSeconds) < U64Bound
    requires 0 <= maxRisk < U8Bound
    ensures var r := EvaluateAml(req, store, scoreMs, issueMs, log10, suite, privateKey);
      var m := ParseAmlCheck(suite, recipient, r.wallet, r.chain, maxRisk, r.risk, r.expires, r.signature);
      && m.Some?
      && (AmlCheckPasses(suite, OracleConfig(suite, privateKey), m.value, nowSecs, rule)
          <==> Unexpired(rule, nowSecs, r.expires) && r.risk <= maxRisk)
  {
    var r := EvaluateAml(req, store, scoreMs, issueMs, log10, suite, privateKey);
    var canonical := Canonical(r.wallet, r.chain, r.risk, r.expires);
    var m := ParseAmlCheck(suite, recipient, r.wallet, r.chain, maxRisk, r.risk, r.expires, r.signature);
    assert m.value.signature == SignText(suite, privateKey, canonical);
    SignedStringIsCanonical(r.wallet, r.chain, r.risk as u8, r.expires as u64);
  }

  /** A signature is bound to the string it was issued over: if the contract
      accepts a signature issued for one canonical message on a message whose signed
      string is a different text, the two texts differ as UTF-8 bytes yet have the
      same SHA-256 digest, which is a collision. No condition on the fields is needed. */
  lemma AcceptedOtherStringNeedsCollision(
    suite: Suite, privateKey: seq<byte>, wallet: string, chain: string, risk: int, expires: int,
    msg: ExecuteMsg, nowSecs: int, rule: ExpiryRule)
    requires Correct(suite) && Unforgeable(suite)
    requires msg.SendWithAmlCheck?
    requires msg.signature == SignText(suite, privateKey, Canonical(wallet, chain, risk, expires))
    requires SignedString(msg.wallet, msg.chain, msg.risk, msg.expires) != Canonical(wallet, chain, risk, expires)
    requires AmlCheckPasses(suite, OracleConfig(suite, privateKey), msg, nowSecs, rule)
    ensures var presented := Utf8.Encode(SignedString(msg.wallet, msg.chain, msg.risk, msg.expires));
      var issued := Utf8.Encode(Canonical(wallet, chain, risk, expires));
      presented != issued && suite.sha256(presented) == suite.sha256(issued)
  {
    var issued := Canonical(wallet, chain, risk, expires);
    var presented := SignedString(msg.wallet, msg.chain, msg.risk, msg.expires);
    SignatureBindsText(suite, privateKey, issued, presented);
  }

  /** Changing any signed field breaks the attestation, provided no wallet or chain
      involved contains `|` (with a `|`, two field tuples can share one message and
      need no collision): if the contract accepts a signature issued for one
      (wallet, chain, risk, expires) on a message carrying other values, the two
      canonical messages differ as UTF-8 bytes yet have the same SHA-256 digest. */
  lemma TamperingNeedsCollision(
    suite: Suite, privateKey: seq<byte>, wallet: string, chain: string, risk: int, expires: int,
    msg: ExecuteMsg, nowSecs: int, rule: ExpiryRule)
    requires Correct(suite) && Unforgeable(suite)
    requires msg.SendWithAmlCheck?
    requires msg.signature == SignText(suite, privateKey, Canonical(wallet, chain, risk, expires))
    requires Bar !in wallet && Bar !in chain && Bar !in msg.wallet && Bar !in msg.chain
    requires msg.wallet != wallet || msg.chain != chain || msg.risk as int != risk || msg.expires as int != expires
    requires AmlCheckPasses(suite, OracleConfig(suite, privateKey), msg, nowSecs, rule)
    ensures var presented := Utf8.Encode(SignedString(msg.wallet, msg.chain, msg.risk, msg.expires));
      var issued := Utf8.Encode(Canonical(wallet, chain, risk, expires));
      presented != issued && suite.sha256(presented) == suite.sha256(issued)
  {
    var issued := Canonical(wallet, chain, risk, expires);
    var presented := SignedString(msg.wallet, msg.chain, msg.risk, msg.expires);
    SignedStringIsCanonical(msg.wallet, msg.chain, msg.risk, msg.expires);
    if presented == issued {
      CanonicalInjective(msg.wallet, msg.chain, msg.risk as int, msg.expires as int, wallet, chain, risk, expires);
      assert false;
    }
    AcceptedOtherStringNeedsCollision(suite, privateKey, wallet, chain, risk, expires, msg, nowSecs, rule);
  }

  /** What `updateOracleData` submits deserialises as the contract's
      `OracleDataUpdate { data, signature }`: the payload unchanged, with a 64-byte
      `r || s` signature that verifies over its SHA-256 digest under the oracle key. */
  lemma OracleUpdateDelivered(msg: string, suite: Suite, privateKey: seq<byte>)
    requires Correct(suite)
    ensures var push := UpdateOracleData(msg, suite, privateKey);
      var m := ParseOracleDataUpdate(suite, push.data, push.signature);
      && m.Some? && m.value.OracleDataUpdate? && m.value.data == msg
      && |m.value.signature| == CompactLength
      && suite.verify(suite.publicKey(privateKey), Digest(suite, msg), m.value.signature)
  {
    var push := UpdateOracleData(msg, suite, privateKey);
    assert push.signature == SignForTransport(suite, privateKey, msg);
  }
}

=== FILE: Risk.dfy ===
/** The risk engine: `computeRisk` reduces the recent history of a wallet to a
    score in 0..10 from three signals (activity, freshness, ETH value). */
module Risk {
  import opened Base
  import opened History

  /** `computeRisk` always asks for the 20 newest records. */
  const HistoryWindow: nat := 20
  const MillisPerHour: int := 3_600_000
  /** The age, in hours, used when there is no usable newest timestamp. */
  const AncientAgeHours: real := 9999.0
  /** The largest risk that is still compliant. */
  const ComplianceLine: int := 5

  /** The signals record returned next to the score. */
  datatype Signals = Signals(
    txCount: nat,
    ageHours: real,
    valueSignal: real,
    activitySignal: int,
    freshnessSignal: int)

  /** `RiskAssessment`. */
  datatype Assessment = Assessment(risk: int, compliant: bool, signals: Signals)

  /** Sparse history is riskier: 5 below 3 transactions, 3 below 10, else 1. */
  function ActivitySignal(txCount: nat): (r: int)
    ensures r == 1 || r == 3 || r == 5
    ensures r == 5 <==> txCount < 3
    ensures r == 1 <==> txCount >= 10
  {
    if txCount < 3 then 5 else if txCount < 10 then 3 else 1
  }

  /** The newest record's timestamp in milliseconds, `0` when the history is empty
      or the newest record has no timestamp; 0 stands for "no usable timestamp",
      which `computeRisk` treats as ancient. */
  function RecentTimestamp(txs: seq<TxRecord>): (ts: int)
    ensures ts != 0 ==> |txs| > 0 && txs[0].blockTimestamp == Some(ts)
    ensures |txs| > 0 && txs[0].blockTimestamp.Some? ==> ts == txs[0].blockTimestamp.value
  {
    if |txs| > 0 && txs[0].blockTimestamp.Some? then txs[0].blockTimestamp.value else 0
  }

  /** Hours since the newest record; a zero timestamp means "ancient". */
  function AgeHours(recentTs: int, nowMs: int): (h: real)
    ensures recentTs == 0 ==> h == AncientAgeHours
    ensures recentTs != 0 ==> h * 3_600_000.0 == (nowMs - recentTs) as real
  {
    if recentTs != 0 then (nowMs - recentTs) as real / MillisPerHour as real else AncientAgeHours
  }

  /** Recent activity is riskier: 4 within the hour, 2 within the day, else 0. */
  function FreshnessSignal(ageHours: real): (r: int)
    ensures r == 0 || r == 2 || r == 4
    ensures r == 4 <==> ageHours < 1.0
    ensures r == 0 <==> ageHours >= 24.0
  {
    if ageHours < 1.0 then 4 else if ageHours < 24.0 then 2 else 0
  }

  /** The sum of the `value` fields, a missing or non-numeric value counting as 0. */
  function ValueTotal(txs: seq<TxRecord>): (total: real)
    ensures (forall i :: 0 <= i < |txs| ==> txs[i].value.None?) ==> total == 0.0
    decreases |txs|
  {
    if |txs| == 0 then 0.0 else txs[0].value.GetOr(0.0) + ValueTotal(txs[1..])
  }

  /** What the model relies on about `Math.log10`: it maps 1 to 0 and 10 to 1 and
      is monotone on the positive reals. */
  ghost predicate LogLaws(log10: real -> real) {
    && log10(1.0) == 0.0
    && log10(10.0) == 1.0
    && forall x, y :: 0.0 < x <= y ==> log10(x) <= log10(y)
  }

  function MinReal(a: real, b: real): real {
    if a <= b then a else b
  }

  /** ETH only: `min(10, log10(1 + total))`. BTC carries no values. */
  function ValueSignal(chain: Chain, txs: seq<TxRecord>, log10: real -> real): (v: real)
    ensures v <= 10.0
    ensures chain == Btc ==> v == 0.0
  {
    if chain == Eth then MinReal(10.0, log10(1.0 + ValueTotal(txs))) else 0.0
  }

  /** `Math.round`: the nearest integer, halves rounded up. */
  function RoundHalfUp(x: real): (n: int)
    ensures n as real - 0.5 <= x < n as real + 0.5
  {
    (x + 0.5).Floor
  }

  function Clamp(lo: int, hi: int, x: int): (c: int)
    requires lo <= hi
    ensures lo <= c <= hi
    ensures lo <= x <= hi ==> c == x
    ensures x < lo ==> c == lo
    ensures hi < x ==> c == hi
  {
    if x < lo then lo else if hi < x then hi else x
  }

  function Raw(s: Signals): real {
    s.activitySignal as real + s.freshnessSignal as real + s.valueSignal
  }

  /** The scoring step of `computeRisk` on a history already fetched, at time `nowMs`. */
  function Score(txs: seq<TxRecord>, chain: Chain, nowMs: int, log10: real -> real): (a: Assessment)
    ensures 0 <= a.risk <= 10
    ensures a.compliant <==> a.risk <= ComplianceLine
    ensures a.signals.txCount == |txs|
    ensures a.signals.valueSignal <= 10.0 && (chain == Btc ==> a.signals.valueSignal == 0.0)
    ensures RecentTimestamp(txs) == 0 ==> a.signals.ageHours == AncientAgeHours
    ensures Raw(a.signals) < 0.5 <==> a.risk == 0
    ensures Raw(a.signals) >= 9.5 <==> a.risk == 10
    ensures 0 < a.risk < 10 ==> a.risk as real - 0.5 <= Raw(a.signals) < a.risk as real + 0.5
  {
    var ageHours := AgeHours(RecentTimestamp(txs), nowMs);
    var signals := Signals(
      |txs|,
      ageHours,
      ValueSignal(chain, txs, log10),
      ActivitySignal(|txs|),
      FreshnessSignal(ageHours));
    var risk := Clamp(0, 10, RoundHalfUp(Raw(signals)));
    Assessment(risk, risk <= ComplianceLine, signals)
  }

  /** `computeRisk({wallet, chain})`: score the 20 newest matching records. */
  function ComputeRisk(store: Store, wallet: string, chainName: string, nowMs: int, log10: real -> real)
    : (a: Assessment)
    ensures 0 <= a.risk <= 10
    ensures a.compliant <==> a.risk <= ComplianceLine
    ensures a.signals.txCount == Min(HistoryWindow, |Matched(store, wallet, ChainOf(chainName))|)
  {
    var chain := ChainOf(chainName);
    Score(Recent(store, wallet, chain, HistoryWindow), chain, nowMs, log10)
  }

  /** The activity signal of a score: exactly 5 below 3 transactions, exactly 1
      from 10 on, 3 in between, and a longer history never raises it. */
  lemma ActivityThresholds(txs: seq<TxRecord>, more: seq<TxRecord>, chain: Chain, nowMs: int, log10: real -> real)
    ensures var f := Score(txs, chain, nowMs, log10).signals.activitySignal;
      && (f == 5 <==> |txs| < 3)
      && (f == 1 <==> |txs| >= 10)
      && (f == 3 <==> 3 <= |txs| < 10)
    ensures |txs| <= |more| ==>
      Score(more, chain, nowMs, log10).signals.activitySignal <= Score(txs, chain, nowMs, log10).signals.activitySignal
  {
  }

  /** The freshness signal of a score in whole milliseconds: under one hour since
      the newest record gives 4, under a day gives 2, and a missing or zero
      timestamp counts as ancient. */
  lemma FreshnessByMillis(txs: seq<TxRecord>, chain: Chain, nowMs: int, log10: real -> real)
    ensures var ts := RecentTimestamp(txs);
      var f := Score(txs, chain, nowMs, log10).signals.freshnessSignal;
      && (f == 4 <==> ts != 0 && nowMs - ts < 3_600_000)
      && (f == 2 <==> ts != 0 && 3_600_000 <= nowMs - ts < 86_400_000)
      && (f == 0 <==> ts == 0 || nowMs - ts >= 86_400_000)
    ensures |txs| == 0 || txs[0].blockTimestamp.None? || txs[0].blockTimestamp == Some(0)
        ==> Score(txs, chain, nowMs, log10).signals.freshnessSignal == 0
  {
  }

  /** With the logarithm's laws and a non-negative total, the value signal lies in
      0..10; on BTC it is always 0, whatever the values. */
  lemma ValueSignalBounds(chain: Chain, txs: seq<TxRecord>, log10: real -> real)
    requires LogLaws(log10)
    requires ValueTotal(txs) >= 0.0
    ensures 0.0 <= ValueSignal(chain, txs, log10) <= 10.0
    ensures chain == Btc ==> ValueSignal(chain, txs, log10) == 0.0
  {
    if chain == Eth {
      assert log10(1.0) <= log10(1.0 + ValueTotal(txs));
    }
  }

  /** Non-negative values add up to a non-negative total. */
  lemma {:induction false} ValueTotalNonNegative(txs: seq<TxRecord>)
    requires forall i :: 0 <= i < |txs| ==> txs[i].value.GetOr(0.0) >= 0.0
    ensures ValueTotal(txs) >= 0.0
    decreases |txs|
  {
    if |txs| > 0 {
      ValueTotalNonNegative(txs[1..]);
    }
  }

  /** An empty history scores 5 on either chain, which is compliant. */
  lemma EmptyHistoryScoresFive(chain: Chain, nowMs: int, log10: real -> real)
    requires log10(1.0) == 0.0
    ensures Score([], chain, nowMs, log10).risk == 5
    ensures Score([], chain, nowMs, log10).compliant
    ensures Score([], chain, nowMs, log10).signals == Signals(0, AncientAgeHours, 0.0, 5, 0)
  {
  }

  /** A wallet with no matching rows scores 5 and is compliant, on either chain. */
  lemma NoHistoryScoresFive(store: Store, wallet: string, chainName: string, nowMs: int, log10: real -> real)
    requires log10(1.0) == 0.0
    requires |Matched(store, wallet, ChainOf(chainName))| == 0
    ensures ComputeRisk(store, wallet, chainName, nowMs, log10).risk == 5
    ensures ComputeRisk(store, wallet, chainName, nowMs, log10).compliant
  {
    var chain := ChainOf(chainName);
    assert Recent(store, wallet, chain, HistoryWindow) == [];
    EmptyHistoryScoresFive(chain, nowMs, log10);
  }

  /** Without value data a BTC score is activity plus freshness, so at most 9. */
  lemma BtcRiskIsActivityPlusFreshness(txs: seq<TxRecord>, nowMs: int, log10: real -> real)
    ensures var a := Score(txs, Btc, nowMs, log10);
      a.risk == a.signals.activitySignal + a.signals.freshnessSignal && a.risk <= 9
  {
    var a := Score(txs, Btc, nowMs, log10);
    var k := a.signals.activitySignal + a.signals.freshnessSignal;
    assert Raw(a.signals) == k as real;
    assert RoundHalfUp(k as real) == k;
  }

  /** A sparse ETH history whose newest record is under an hour old and whose values
      total at least 9 reaches the maximum score and is not compliant. */
  lemma FreshSparseValuableIsMaximal(txs: seq<TxRecord>, nowMs: int, log10: real -> real)
    requires LogLaws(log10)
    requires |txs| < 3
    requires RecentTimestamp(txs) != 0 && nowMs - RecentTimestamp(txs) < 3_600_000
    requires ValueTotal(txs) >= 9.0
    ensures Score(txs, Eth, nowMs, log10).risk == 10
    ensures !Score(txs, Eth, nowMs, log10).compliant
  {
    FreshnessByMillis(txs, Eth, nowMs, log10);
    assert log10(10.0) <= log10(1.0 + ValueTotal(txs));
  }
}

=== FILE: Text.dfy ===
/** String helpers shared by the history queries and the canonical message:
    ASCII case folding, substring containment and splitting on a delimiter. */
module Text {

  /** Folds an ASCII upper-case letter to lower case; every other character is unchanged. */
  function LowerChar(c: char): (d: char)
    ensures 'A' <= c <= 'Z' ==> 'a' <= d <= 'z'
    ensures !('A' <= c <= 'Z') ==> d == c
  {
    if 'A' <= c <= 'Z' then (c as int + 32) as char else c
  }

  /** SQL `lower(...)`, restricted to ASCII folding. */
  function Lower(s: string): (r: string)
    ensures |r| == |s|
    ensures forall i :: 0 <= i < |s| ==> r[i] == LowerChar(s[i])
  {
    seq(|s|, i requires 0 <= i < |s| => LowerChar(s[i]))
  }

  /** `needle` occurs in `hay` starting at position `i`. */
  ghost predicate OccursAt(hay: string, needle: string, i: int) {
    0 <= i && i + |needle| <= |hay| && hay[i..i + |needle|] == needle
  }

  predicate IsPrefix(p: string, s: string) {
    |p| <= |s| && s[..|p|] == p
  }

  /** Substring containment, decided by scanning every start position. */
  predicate Contains(hay: string, needle: string)
    decreases |hay|
  {
    IsPrefix(needle, hay) || (|hay| > 0 && Contains(hay[1..], needle))
  }

  /** An occurrence at position `i` is found by the scan. */
  lemma {:induction false} OccurrenceIsFound(hay: string, needle: string, i: int)
    requires OccursAt(hay, needle, i)
    ensures Contains(hay, needle)
    decreases i
  {
    if i == 0 {
      assert IsPrefix(needle, hay);
    } else {
      assert hay[1..][i - 1..i - 1 + |needle|] == hay[i..i + |needle|];
      OccurrenceIsFound(hay[1..], needle, i - 1);
    }
  }

  /** The scan only succeeds where `needle` occurs; `i` is the position it stops at. */
  lemma {:induction false} FoundIsOccurrence(hay: string, needle: string) returns (i: int)
    requires Contains(hay, needle)
    ensures OccursAt(hay, needle, i)
    decreases |hay|
  {
    if IsPrefix(needle, hay) {
      i := 0;
    } else {
      var j := FoundIsOccurrence(hay[1..], needle);
      assert hay[j + 1..j + 1 + |needle|] == hay[1..][j..j + |needle|];
      i := j + 1;
    }
  }

  /** The scan decides exactly "there is a position where `needle` occurs". */
  lemma ContainsIffOccurs(hay: string, needle: string)
    ensures Contains(hay, needle) <==> exists i :: OccursAt(hay, needle, i)
  {
    if Contains(hay, needle) {
      var i := FoundIsOccurrence(hay, needle);
    }
    forall i | OccursAt(hay, needle, i) {
      OccurrenceIsFound(hay, needle, i);
    }
  }

  /** Splits `s` at every occurrence of `sep`, like `str.split(sep)`: k separators give k + 1 fields. */
  function Split(s: string, sep: char): (fields: seq<string>)
    ensures |fields| >= 1
    ensures forall i, j :: 0 <= i < |fields| && 0 <= j < |fields[i]| ==> fields[i][j] != sep
    decreases |s|
  {
    if |s| == 0 then [""]
    else if s[0] == sep then [""] + Split(s[1..], sep)
    else
      var rest := Split(s[1..], sep);
      [[s[0]] + rest[0]] + rest[1..]
  }

  /** Joins fields with `sep` between consecutive ones. */
  function Join(fields: seq<string>, sep: char): string
    requires |fields| >= 1
    decreases |fields|
  {
    if |fields| == 1 then fields[0] else fields[0] + [sep] + Join(fields[1..], sep)
  }

  /** Four fields joined: each followed by the separator except the last. */
  lemma JoinFour(a: string, b: string, c: string, d: string, sep: char)
    ensures Join([a, b, c, d], sep) == a + [sep] + b + [sep] + c + [sep] + d
  {
    var fields := [a, b, c, d];
    assert fields[1..] == [b, c, d];
    assert fields[1..][1..] == [c, d];
    assert fields[1..][1..][1..] == [d];
    assert Join(fields[1..][1..], sep) == c + [sep] + d;
    assert Join(fields[1..], sep) == b + [sep] + (c + [sep] + d);
  }

  /** A text without the separator is a single field. */
  lemma {:induction false} SplitWithoutSeparator(s: string, sep: char)
    requires sep !in s
    ensures Split(s, sep) == [s]
    decreases |s|
  {
    if |s| > 0 {
      SplitWithoutSeparator(s[1..], sep);
      assert [s[0]] + s[1..] == s;
    }
  }

  /** A separator-free field followed by the separator splits off as the first field. */
  lemma {:induction false} SplitLeadingField(a: string, sep: char, b: string)
    requires sep !in a
    ensures Split(a + [sep] + b, sep) == [a] + Split(b, sep)
    decreases |a|
  {
    var s := a + [sep] + b;
    if |a| == 0 {
      assert s[1..] == b;
    } else {
      assert s[1..] == a[1..] + [sep] + b;
      SplitLeadingField(a[1..], sep, b);
      assert [a[0]] + a[1..] == a;
    }
  }

  /** Splitting undoes joining, provided no field contains the separator. */
  lemma {:induction false} SplitJoin(fields: seq<string>, sep: char)
    requires |fields| >= 1
    requires forall i :: 0 <= i < |fields| ==> sep !in fields[i]
    ensures Split(Join(fields, sep), sep) == fields
    decreases |fields|
  {
    if |fields| == 1 {
      SplitWithoutSeparator(fields[0], sep);
    } else {
      SplitJoin(fields[1..], sep);
      SplitLeadingField(fields[0], sep, Join(fields[1..], sep));
      assert [fields[0]] + fields[1..] == fields;
    }
  }
}

=== FILE: Utf8.dfy ===
/** UTF-8 encoding of text (`toUtf8` on the oracle side, `str::as_bytes` on the contract side).
    A Dafny `char` is a Unicode scalar value, so every character has an encoding. */
module Utf8 {
  import opened Base

  /** The 1- to 4-byte sequence of one scalar value (section 3 of RFC 3629). */
  function EncodeChar(c: char): (bs: seq<byte>)
    ensures 1 <= |bs| <= 4
  {
    var n := c as int;
    if n < 0x80 then
      [n as byte]
    else if n < 0x800 then
      [(0xC0 + n / 64) as byte, (0x80 + n % 64) as byte]
    else if n < 0x1_0000 then
      [(0xE0 + n / 4096) as byte, (0x80 + (n / 64) % 64) as byte, (0x80 + n % 64) as byte]
    else
      [(0xF0 + n / 262144) as byte, (0x80 + (n / 4096) % 64) as byte,
       (0x80 + (n / 64) % 64) as byte, (0x80 + n % 64) as byte]
  }

  function Encode(s: string): (bs: seq<byte>)
    ensures |s| <= |bs| <= 4 * |s|
    ensures |s| > 0 ==> |EncodeChar(s[0])| <= |bs| && bs[..|EncodeChar(s[0])|] == EncodeChar(s[0])
    decreases |s|
  {
    if |s| == 0 then [] else EncodeChar(s[0]) + Encode(s[1..])
  }

  /** The sequence length announced by a lead byte. */
  function Width(lead: byte): nat {
    if lead < 0x80 then 1 else if lead < 0xE0 then 2 else if lead < 0xF0 then 3 else 4
  }

  /** The code point carried by a lead byte and its continuation bytes. */
  function CodePoint(bs: seq<byte>): int
    requires 1 <= |bs| <= 4
  {
    if |bs| == 1 then bs[0] as int
    else if |bs| == 2 then (bs[0] as int - 0xC0) * 64 + (bs[1] as int - 0x80)
    else if |bs| == 3 then
      (bs[0] as int - 0xE0) * 4096 + (bs[1] as int - 0x80) * 64 + (bs[2] as int - 0x80)
    else
      (bs[0] as int - 0xF0) * 262144 + (bs[1] as int - 0x80) * 4096
      + (bs[2] as int - 0x80) * 64 + (bs[3] as int - 0x80)
  }

  predicate IsScalar(n: int) {
    (0 <= n < 0xD800) || (0xE000 <= n < 0x11_0000)
  }

  /** Decodes a byte string, or `None` when it is truncated or names no scalar value. */
  function Decode(bs: seq<byte>): Option<string>
    decreases |bs|
  {
    if |bs| == 0 then Some([])
    else
      var w := Width(bs[0]);
      if |bs| < w then None
      else
        var n := CodePoint(bs[..w]);
        if !IsScalar(n) then None
        else match Decode(bs[w..])
          case None => None
          case Some(rest) => Some([n as char] + rest)
  }

  /** Each character's encoding announces its own length and carries its code point. */
  lemma CharRoundTrip(c: char)
    ensures Width(EncodeChar(c)[0]) == |EncodeChar(c)|
    ensures CodePoint(EncodeChar(c)) == c as int
  {
    var n := c as int;
    var bs := EncodeChar(c);
    if n < 0x80 {
    } else if n < 0x800 {
      assert n == (n / 64) * 64 + n % 64;
    } else if n < 0x1_0000 {
      var q := n / 64;
      assert n == q * 64 + n % 64;
      assert q == (q / 64) * 64 + q % 64;
      assert q / 64 == n / 4096;
    } else {
      var q := n / 64;
      var q2 := q / 64;
      assert n == q * 64 + n % 64;
      assert q == q2 * 64 + q % 64;
      assert q2 == (q2 / 64) * 64 + q2 % 64;
      assert q2 == n / 4096;
      assert q2 / 64 == n / 262144;
    }
  }

  /** Decoding the encoding gives the text back. */
  lemma {:induction false} DecodeEncode(s: string)
    ensures Decode(Encode(s)) == Some(s)
    decreases |s|
  {
    if |s| > 0 {
      var head := EncodeChar(s[0]);
      var bs := Encode(s);
      CharRoundTrip(s[0]);
      assert bs[0] == head[0];
      assert bs[..|head|] == head;
      assert bs[|head|..] == Encode(s[1..]);
      DecodeEncode(s[1..]);
      assert [s[0]] + s[1..] == s;
    }
  }

  /** Distinct texts have distinct encodings, so the bytes that are hashed determine the text. */
  lemma EncodeInjective(s: string, t: string)
    requires Encode(s) == Encode(t)
    ensures s == t
  {
    DecodeEncode(s);
    DecodeEncode(t);
  }
}
